=== FILE: README.md ===
# PhpBeautifier in Dafny

A model of the `PhpBeautifierCommand` Sublime Text command, which pipes the
active PHP document through the external `php_beautifier` formatter and
either replaces the document with the formatted text or shows the
formatter's error output in a panel.

The model is pure and functional. It has five modules:

- `Strings` (strings.dfy): Python's `' '.join(...)` and `str.split(' ')`. `Split`
  undoes `Join` on non-empty lists of space-free names, and `Join` undoes
  `Split` on every string.
- `LineEndings` (line_endings.dfy): `fixup`, the line-ending normaliser. It maps
  every `"\r\n"` and every lone `"\r"` to `"\n"` in already-decoded text.
- `CommandLine` (command_line.dfy): the formatter's argument vector and the
  platform-dependent command name.
- `Editor` (editor.dfy): whole-document replacement and the rewrite of the
  error panel, on buffers seen as strings.
- `Beautifier` (beautifier.dfy): the ordered early-exit checks of `run`, the
  extension prompt of `missingFileExtension`, and the dispatch on the
  formatter's error output. `Run` returns the outcome (`NoOp`, `Error`,
  `Replaced`, `Panel`, or `LaunchFailed` when the formatter cannot be
  started), the possibly extended extension list, and the process started
  (its argv and its input), if any.

The environment is given to `Run` as inputs:
- the view's scratch and dirty flags, its file name, whether the file
  exists, its extension, and its text;
- the settings;
- Python's `os.name`;
- the user's answer to the dialog;
- whether the formatter command can be started;
- the formatter's decoded standard output and standard error.

Notes on the program's behaviour:
- the error messages are the literal `"Please save the file."` and
  `"File <name> does not exist."`, with a missing name printed as `None`;
- the accepted extensions form an ordered list that is appended to, not a set;
- an empty file name counts as missing, like an absent one.

## Model

| member | source | states |
|---|---|---|
| LineEndings.Fixup | php_beautifier.py:68-69 | the result never contains `\r`, is no longer than the input, and is empty only for empty input |
| LineEndings.FixupFixesExactlyClean | php_beautifier.py:69 | text is left unchanged by normalisation exactly when it contains no `\r` |
| LineEndings.FixupIdempotent | php_beautifier.py:69 | normalising twice gives the same text as normalising once |
| LineEndings.FixupLength | php_beautifier.py:69 | the output is shorter than the input by exactly the number of `\r\n` pairs, so each pair yields one `\n`, not two |
| LineEndings.FixupLineBreaks | php_beautifier.py:69 | the number of `\n` in the output is the number of `\r` plus the number of `\n` in the input, minus the `\r\n` pairs |
| LineEndings.FixupKeepsContent | php_beautifier.py:69 | removing all line-break characters from input and output gives the same text: every other character survives in order |
| LineEndings.FixupAppend | php_beautifier.py:69 | normalisation of a concatenation is the concatenation of the normalisations, unless the cut splits a `\r\n` pair |
| LineEndings.FixupCrLf | php_beautifier.py:69 | a `\r\n` anywhere in the text becomes exactly one `\n` and the surrounding text is normalised independently |
| LineEndings.FixupLoneCr | php_beautifier.py:69 | a `\r` not followed by `\n` becomes one `\n` |
| LineEndings.FixupOther | php_beautifier.py:69 | any character other than `\r` (and other than the `\n` of a `\r\n` pair) is copied unchanged in place |
| Strings.Join | php_beautifier.py:36 | the space-joined string has the total length of the names plus one separator between each pair of neighbours, and holds no characters from outside the names apart from separators |
| Strings.SplitJoin | php_beautifier.py:36 | a non-empty list of space-free filter names is recovered from its space-joined string |
| Strings.JoinSplit | php_beautifier.py:36 | joining the space-separated pieces of any string gives the string back |
| CommandLine.CommandName | php_beautifier.py:41-42 | the command starts with `php_beautifier` and has the `.bat` suffix exactly when `os.name` is `nt` |
| CommandLine.Argv | php_beautifier.py:32-48 | the argv has 8 elements: the command, the indent, `-l`, the space-join of all filters as one token (empty for no filters), then `-f - -o -`; when the names are space-free and there is at least one, the token's space-separated words are exactly the filters |
| CommandLine.ThreeFilters | php_beautifier.py:48 | the filters `a`, `b`, `c` give the single token `a b c` immediately after `-l` |
| Editor.Whole | php_beautifier.py:38 | `Region(0, size)` lies within the document and contains every region that does |
| Editor.Substr | php_beautifier.py:39 | the text of a region is the document's characters from its start, as many as the region is long |
| Editor.Replace | php_beautifier.py:51 | replacing a region keeps the text before and after it and puts the new text between them |
| Editor.ReplaceWhole | php_beautifier.py:38 | replacing the whole-document region leaves exactly the new text |
| Editor.ShowInPanel | php_beautifier.py:62-63 | erasing the panel and inserting at its end leaves exactly the message, whatever the panel held |
| Beautifier.Bare | php_beautifier.py:27 | the extension is compared without its first character (the dot); an empty extension stays empty |
| Beautifier.Preflight | php_beautifier.py:14-23 | the checks pass exactly for a non-scratch, saved, existing file; otherwise scratch gives silence first, then dirty gives the save error, then the not-found error |
| Beautifier.ExtensionGate | php_beautifier.py:27-29 | the command stops exactly for an unknown extension the user declines; otherwise the extension is in the resulting list, which keeps every earlier entry and grows by one exactly when the extension was new |
| Beautifier.Dispatch | php_beautifier.py:50-54 | empty error output replaces the whole-document region `Region(0, size)` with the normalised standard output; any error output goes to the panel as its normalised text |
| Beautifier.Run | php_beautifier.py:10-54 | the formatter starts exactly when every check passes and it can be launched, with the argv and the document text as input; a launch failure happens exactly when the checks pass but the command cannot be started; once started, the outcome is exactly the dispatch on the formatter's output, so the document changes only to the normalised standard output of a run with empty error output; the extension list gains the bare extension at its end exactly when the checks pass, the extension is unknown and the user accepts, and is otherwise unchanged |
| Beautifier.ScratchIsSilent | php_beautifier.py:14-15 | a scratch view ends the command with no message, no process and no settings change, whatever else holds |
| Beautifier.DirtyAsksToSave | php_beautifier.py:17-18 | a non-scratch view with unsaved changes gives the save error and starts nothing |
| Beautifier.MissingFileIsReported | php_beautifier.py:21-23 | a view with no file name, an empty name or no file on disk gives the not-found error and starts nothing |
| Beautifier.DeclinedExtensionStops | php_beautifier.py:27-29 | an unknown extension the user declines ends the command silently with nothing started and the settings unchanged |
| Beautifier.AcceptedExtensionIsAppended | php_beautifier.py:77-84 | an unknown extension the user accepts is appended at the end of the list, and the formatter runs exactly when it can be started |
| Beautifier.LaunchFailureKeepsExtension | php_beautifier.py:41-48 | when the formatter cannot be started, the error escapes the command, the document is untouched and an extension accepted just before stays in the list |
| Beautifier.AcceptedExtensionIsRemembered | php_beautifier.py:79-81 | after the updated list is saved, a second run no longer depends on the user's answer |
| Beautifier.ErrorsIgnoreOutput | php_beautifier.py:53-54 | with non-empty error output the result does not depend on standard output, the document is unchanged and the panel holds the normalised error text |
| Beautifier.EchoNormalisesLineEndings | php_beautifier.py:50-51 | a formatter that echoes its input with no errors leaves the document with normalised line endings and every other character unchanged |

## Left out

- Process creation: `subprocess.Popen`, `communicate` and the Windows
  `STARTUPINFO` flags that hide the console window. The formatter's standard
  output and standard error are inputs. Nothing relates them to what was
  written to its standard input. Whether `Popen` can start the command is an
  input too.
- Windows quoting of the argument list into a single command line is not
  modelled. The argv is modelled as the list handed to `Popen`.
- UTF-8 encoding of the document and UTF-8 decoding of the formatter's
  output. `Fixup` works on decoded characters, and invalid UTF-8 is not
  modelled. The test `len(stderr) == 0` is made on bytes in the code and on
  decoded text in the model; decoding keeps a byte string empty exactly when
  it was empty.
- `os.path.exists` and `os.path.splitext`. The existence of the file and the
  extension part of its path are inputs.
- Editor and settings plumbing:
  - loading and saving the settings file;
  - the dialog's wording;
  - the `"PhpBeautifier: File processed."` status message;
  - the modal error display;
  - creating the output panel, toggling it read-only, `begin_edit`/`end_edit`,
    and showing the panel.

  The model keeps only the effect of these on the document, the panel text and
  the extension list.
- Beautifier.Preflight: assumes the not-found message can always be built. The
  plugin runs on Python 2, where `str.format` with a non-ASCII unicode path
  raises `UnicodeEncodeError` (php_beautifier.py:23), so no message is shown.
  The model returns the `Error` outcome naming the path instead.
- Beautifier.Run: assumes the extension dialog can always be built. On
  Python 2, a non-ASCII unicode extension makes the dialog's `str.format`
  raise (php_beautifier.py:78), and then the dialog never appears and the list
  is left alone. The model consults the user's answer instead. A launch
  failure of the formatter is modelled (`LaunchFailed`).
- A missing `extensions`, `indent` or `filters` key. In the code this raises a
  Python error. The model assumes all three settings exist.

=== FILE: beautifier.dfy ===
/**
 The `PhpBeautifierCommand.run` decision procedure as a pure function. Given
 what the command can observe of the active view, the plugin settings, and
 the answers of its environment (the platform, the user's reply to the
 "add this extension?" dialog, and what the formatter wrote to its standard
 output and standard error), it decides the outcome of one invocation: do
 nothing, show an error message, replace the document, show the error
 panel, or fail to start the formatter; and it yields the possibly extended
 list of accepted extensions and the process it spawned, if any.

 The checks run in a fixed order and each failing check ends the command:
 scratch buffer, unsaved changes, missing file, unaccepted extension.
 */
module Beautifier {
  import opened LineEndings
  import opened CommandLine
  import opened Editor

  datatype Option<T> = None | Some(value: T)

  /** What `run` observes of the active view. `fileName` is `view.file_name()`
      (absent for a buffer never saved); `fileExists` is what the file system
      says about that path; `extension` is the extension part of the path as
      the path library splits it, leading dot included, or empty. */
  datatype View = View(
    isScratch: bool,
    isDirty: bool,
    fileName: Option<string>,
    fileExists: bool,
    extension: string,
    text: string)

  /** The plugin settings: accepted extensions (without dot), the indent
      option and the filter names handed to the formatter. */
  datatype Settings = Settings(extensions: seq<string>, indent: string, filters: seq<string>)

  /** What the environment answers during one run: Python's `os.name`, whether
      the user agrees to add an unknown extension, whether the formatter
      command can be started at all (it is found on the search path), and the
      formatter's decoded standard output and standard error. */
  datatype Host = Host(
    osName: string,
    addExtension: bool,
    launches: bool,
    stdout: string,
    stderr: string)

  /** The one visible effect of a run. */
  datatype Outcome =
    | NoOp
    | Error(msg: string)
    | Replaced(region: Region, text: string)
    | Panel(text: string)
      /** Starting the formatter raised an error, which escapes the command. */
    | LaunchFailed

  /** A formatter process: its argument vector and what is written to its input. */
  datatype Spawn = Spawn(argv: seq<string>, input: string)

  datatype RunResult = RunResult(outcome: Outcome, extensions: seq<string>, spawn: Option<Spawn>)

  const SaveMessage: string := "Please save the file."

  /** The "file does not exist" message; an absent name prints as Python's `None`. */
  function MissingMessage(name: Option<string>): string
  {
    "File " + (match name case None => "None" case Some(n) => n) + " does not exist."
  }

  /** The file check fails when there is no name, the name is empty (Python
      treats `""` as false) or nothing exists at that path. */
  predicate FileMissing(v: View)
  {
    v.fileName.None? || v.fileName.value == "" || !v.fileExists
  }

  /** Python's `ext[1:]`: the extension without its leading dot; empty stays empty. */
  function Bare(extension: string): (r: string)
    ensures |extension| > 0 ==> [extension[0]] + r == extension
    ensures |extension| == 0 ==> r == ""
  {
    if |extension| == 0 then "" else extension[1..]
  }

  /** The environment checks, in order; `None` means all of them passed. */
  function Preflight(v: View): (r: Option<Outcome>)
    ensures r == None <==> !v.isScratch && !v.isDirty && !FileMissing(v)
    ensures v.isScratch ==> r == Some(NoOp)
    ensures !v.isScratch && v.isDirty ==> r == Some(Error(SaveMessage))
    ensures !v.isScratch && !v.isDirty && FileMissing(v)
            ==> r == Some(Error(MissingMessage(v.fileName)))
  {
    if v.isScratch then Some(NoOp)
    else if v.isDirty then Some(Error(SaveMessage))
    else if FileMissing(v) then Some(Error(MissingMessage(v.fileName)))
    else None
  }

  /** The extension check together with `missingFileExtension`: a known
      extension passes; an unknown one passes only if the user agrees, and is
      then appended to the list. `None` means the command stops. */
  function ExtensionGate(ext: string, extensions: seq<string>, accept: bool)
    : (r: Option<seq<string>>)
    ensures r.None? <==> ext !in extensions && !accept
    ensures r.Some? ==> ext in r.value
    ensures r.Some? ==> |extensions| <= |r.value| <= |extensions| + 1
    ensures r.Some? ==> r.value[..|extensions|] == extensions
    ensures r.Some? ==> (|r.value| > |extensions| <==> ext !in extensions)
  {
    if ext in extensions then Some(extensions)
    else if accept then Some(extensions + [ext])
    else None
  }

  /** Outcome of a finished formatter run: any error output sends its
      normalised text to the panel; otherwise the whole document is replaced
      by the normalised standard output. */
  function Dispatch(doc: string, stdout: string, stderr: string): (o: Outcome)
    ensures o.Replaced? || o.Panel?
    ensures o.Replaced? <==> |stderr| == 0
    ensures o.Replaced? ==> o.region == Whole(doc) && o.text == Fixup(stdout)
    ensures o.Replaced? ==> o.region.Within(|doc|)
                            && Replace(doc, o.region, o.text) == Fixup(stdout)
    ensures o.Panel? ==> o.text == Fixup(stderr) && CR !in o.text
  {
    if |stderr| == 0 then
      ReplaceWhole(doc, Fixup(stdout));
      Replaced(Whole(doc), Fixup(stdout))
    else Panel(Fixup(stderr))
  }

  /** Every check passes, so the formatter is launched. */
  predicate Proceeds(v: View, s: Settings, h: Host)
  {
    && !v.isScratch && !v.isDirty && !FileMissing(v)
    && (Bare(v.extension) in s.extensions || h.addExtension)
  }

  /** The document after the outcome is applied: only a replacement changes it. */
  function DocumentAfter(doc: string, o: Outcome): string
    requires o.Replaced? ==> o.region.Within(|doc|)
  {
    if o.Replaced? then Replace(doc, o.region, o.text) else doc
  }

  /** The error panel after the outcome is applied: only a panel outcome changes it. */
  function PanelAfter(prior: string, o: Outcome): string
  {
    if o.Panel? then ShowInPanel(prior, o.text) else prior
  }

  /** One invocation of the command. */
  function Run(v: View, s: Settings, h: Host): (r: RunResult)
    ensures r.spawn.Some? <==> Proceeds(v, s, h) && h.launches
    ensures r.spawn.Some? ==> r.spawn.value == Spawn(Argv(h.osName, s.indent, s.filters), v.text)
    ensures r.spawn.Some? ==> r.outcome == Dispatch(v.text, h.stdout, h.stderr)
    ensures r.outcome.LaunchFailed? <==> Proceeds(v, s, h) && !h.launches
    ensures r.spawn.None? ==> r.outcome.NoOp? || r.outcome.Error? || r.outcome.LaunchFailed?
    ensures r.outcome.Replaced? ==> r.outcome.region.Within(|v.text|)
    ensures DocumentAfter(v.text, r.outcome) ==
            (if r.spawn.Some? && |h.stderr| == 0 then Fixup(h.stdout) else v.text)
    ensures r.outcome.Panel? <==> r.spawn.Some? && |h.stderr| > 0
    ensures r.outcome.Panel? ==> r.outcome.text == Fixup(h.stderr)
    ensures |s.extensions| <= |r.extensions| <= |s.extensions| + 1
    ensures r.extensions[..|s.extensions|] == s.extensions
    ensures Proceeds(v, s, h) ==> Bare(v.extension) in r.extensions
    ensures r.extensions ==
            (if Preflight(v).None? && Bare(v.extension) !in s.extensions && h.addExtension
             then s.extensions + [Bare(v.extension)]
             else s.extensions)
  {
    match Preflight(v)
    case Some(o) => RunResult(o, s.extensions, None)
    case None =>
      match ExtensionGate(Bare(v.extension), s.extensions, h.addExtension)
      case None => RunResult(NoOp, s.extensions, None)
      case Some(exts) =>
        if !h.launches then RunResult(LaunchFailed, exts, None)
        else
          var argv := Argv(h.osName, s.indent, s.filters);
          var input := Substr(v.text, Whole(v.text));
          RunResult(Dispatch(v.text, h.stdout, h.stderr), exts, Some(Spawn(argv, input)))
  }

  /** A scratch buffer ends the command silently, before any other check. */
  lemma ScratchIsSilent(v: View, s: Settings, h: Host)
    requires v.isScratch
    ensures Run(v, s, h) == RunResult(NoOp, s.extensions, None)
  {
  }

  /** A saved-to-disk buffer with unsaved changes is refused with the save message. */
  lemma DirtyAsksToSave(v: View, s: Settings, h: Host)
    requires !v.isScratch && v.isDirty
    ensures Run(v, s, h) == RunResult(Error(SaveMessage), s.extensions, None)
  {
  }

  /** A buffer without a file, or whose file is gone, is refused with the
      "does not exist" message naming the path. */
  lemma MissingFileIsReported(v: View, s: Settings, h: Host)
    requires !v.isScratch && !v.isDirty && FileMissing(v)
    ensures Run(v, s, h) == RunResult(Error(MissingMessage(v.fileName)), s.extensions, None)
  {
  }

  /** An unknown extension the user declines ends the command: no process,
      no change to the document or to the settings. */
  lemma DeclinedExtensionStops(v: View, s: Settings, h: Host)
    requires !v.isScratch && !v.isDirty && !FileMissing(v)
    requires Bare(v.extension) !in s.extensions && !h.addExtension
    ensures Run(v, s, h) == RunResult(NoOp, s.extensions, None)
  {
  }

  /** An unknown extension the user accepts is appended at the end of the
      list, and the formatter runs if it can be started. */
  lemma AcceptedExtensionIsAppended(v: View, s: Settings, h: Host)
    requires !v.isScratch && !v.isDirty && !FileMissing(v)
    requires Bare(v.extension) !in s.extensions && h.addExtension
    ensures Run(v, s, h).extensions == s.extensions + [Bare(v.extension)]
    ensures Run(v, s, h).spawn.Some? <==> h.launches
  {
  }

  /** A formatter that cannot be started ends the command with the error
      escaping it: the document is untouched, but an extension accepted just
      before stays in the saved list. */
  lemma LaunchFailureKeepsExtension(v: View, s: Settings, h: Host)
    requires Proceeds(v, s, h) && !h.launches
    ensures Run(v, s, h).outcome == LaunchFailed
    ensures DocumentAfter(v.text, Run(v, s, h).outcome) == v.text
    ensures Run(v, s, h).extensions ==
            ExtensionGate(Bare(v.extension), s.extensions, h.addExtension).value
  {
  }

  /** Once an extension has been accepted, the next run with the saved list
      no longer depends on the user's answer. */
  lemma AcceptedExtensionIsRemembered(v: View, s: Settings, h: Host, answer: bool)
    requires Proceeds(v, s, h)
    ensures var s' := s.(extensions := Run(v, s, h).extensions);
            Run(v, s', h.(addExtension := answer)) == Run(v, s', h)
  {
  }

  /** When the formatter reports errors, the document stays as it was and the
      panel shows the normalised error text, whatever the standard output held. */
  lemma ErrorsIgnoreOutput(v: View, s: Settings, h: Host, otherStdout: string)
    requires Proceeds(v, s, h) && h.launches && |h.stderr| > 0
    ensures Run(v, s, h) == Run(v, s, h.(stdout := otherStdout))
    ensures DocumentAfter(v.text, Run(v, s, h).outcome) == v.text
    ensures forall prior :: PanelAfter(prior, Run(v, s, h).outcome) == Fixup(h.stderr)
  {
  }

  /** A formatter that echoes its input unchanged and reports nothing leaves
      the document with its line endings normalised and nothing else changed. */
  lemma EchoNormalisesLineEndings(v: View, s: Settings, h: Host)
    requires Proceeds(v, s, h) && h.launches
    requires h.stdout == v.text && h.stderr == ""
    ensures var doc := DocumentAfter(v.text, Run(v, s, h).outcome);
            && doc == Fixup(v.text)
            && CR !in doc
            && Content(doc) == Content(v.text)
            && (CR !in v.text ==> doc == v.text)
  {
    FixupKeepsContent(v.text);
    FixupFixesExactlyClean(v.text);
  }
}

=== FILE: command_line.dfy ===
/**
 The argument vector the plugin hands to the formatter process:
 `[cmd, indent, "-l", filters, "-f", "-", "-o", "-"]`, where `filters` is the
 configured filter names joined by single spaces into ONE token, and `cmd` is
 `php_beautifier`, with a `.bat` suffix when Python reports `os.name == 'nt'`.
 The formatter reads the document from standard input (`-f -`) and writes the
 result to standard output (`-o -`).
 */
module CommandLine {
  import opened Strings

  const BaseCommand: string := "php_beautifier"
  const WindowsSuffix: string := ".bat"

  /** The executable name for the platform named by `osName` (Python's `os.name`). */
  function CommandName(osName: string): (r: string)
    ensures |r| >= |BaseCommand| && r[..|BaseCommand|] == BaseCommand
    ensures |r| > |BaseCommand| <==> osName == "nt"
    ensures |r| > |BaseCommand| ==> r[|BaseCommand|..] == WindowsSuffix
  {
    if osName == "nt" then BaseCommand + WindowsSuffix else BaseCommand
  }

  /** The full argument vector for one formatter run. */
  function Argv(osName: string, indent: string, filters: seq<string>): (argv: seq<string>)
    ensures |argv| == 8
    ensures argv[0] == CommandName(osName)
    ensures argv[1] == indent
    ensures argv[2] == "-l"
    ensures argv[3] == Join(filters, ' ')
    ensures |filters| > 0 && (forall i :: 0 <= i < |filters| ==> ' ' !in filters[i])
            ==> Split(argv[3], ' ') == filters
    ensures argv[4..] == ["-f", "-", "-o", "-"]
  {
    var joined := Join(filters, ' ');
    SplitJoinIfPlain(filters);
    [CommandName(osName), indent, "-l", joined, "-f", "-", "-o", "-"]
  }

  /** Helper: the round trip of `Strings.SplitJoin` on space-free filter names. */
  lemma SplitJoinIfPlain(filters: seq<string>)
    ensures |filters| > 0 && (forall i :: 0 <= i < |filters| ==> ' ' !in filters[i])
            ==> Split(Join(filters, ' '), ' ') == filters
  {
    if |filters| > 0 && (forall i :: 0 <= i < |filters| ==> ' ' !in filters[i]) {
      SplitJoin(filters, ' ');
    }
  }

  /** A concrete instance: filters `a`, `b`, `c` give the single token
      `"a b c"` right after `"-l"`. */
  lemma ThreeFilters()
    ensures Argv("posix", "-s4", ["a", "b", "c"]) ==
            ["php_beautifier", "-s4", "-l", "a b c", "-f", "-", "-o", "-"]
  {
    var fs := ["a", "b", "c"];
    assert Join(fs[2..], ' ') == "c";
    assert fs[1..][1..] == fs[2..];
    assert Join(fs[1..], ' ') == "b c";
    assert Join(fs, ' ') == "a b c";
  }
}

=== FILE: editor.dfy ===
/**
 The two text edits the plugin performs, on buffers seen as plain strings:
 replacing the whole document with the formatted text, and rewriting the
 contents of its error output panel. A `Region` is a half-open range of
 character positions `[begin, end)`, as in the editor's API.
 */
module Editor {

  datatype Region = Region(begin: nat, end: nat) {
    /** The region lies inside a buffer of the given size. */
    predicate Within(size: nat) {
      begin <= end <= size
    }
  }

  /** The region covering a whole buffer, `Region(0, size)`. */
  function Whole(doc: string): (g: Region)
    ensures g.Within(|doc|)
    ensures forall r: Region :: r.Within(|doc|) ==> g.begin <= r.begin && r.end <= g.end
  {
    Region(0, |doc|)
  }

  /** The text covered by a region. */
  function Substr(doc: string, g: Region): (r: string)
    requires g.Within(|doc|)
    ensures |r| == g.end - g.begin
    ensures forall i :: 0 <= i < |r| ==> r[i] == doc[g.begin + i]
  {
    doc[g.begin..g.end]
  }

  /** Replace the text covered by `g` with `text`: what precedes the region and
      what follows it are kept, and `text` now stands between them. */
  function Replace(doc: string, g: Region, text: string): (r: string)
    requires g.Within(|doc|)
    ensures |r| == |doc| - (g.end - g.begin) + |text|
    ensures r[..g.begin] == doc[..g.begin]
    ensures r[g.begin..g.begin + |text|] == text
    ensures r[g.begin + |text|..] == doc[g.end..]
  {
    doc[..g.begin] + text + doc[g.end..]
  }

  /** Erasing a region is replacing it with nothing. */
  function Erase(doc: string, g: Region): (r: string)
    requires g.Within(|doc|)
    ensures |r| == |doc| - (g.end - g.begin)
  {
    Replace(doc, g, "")
  }

  /** Inserting at a position is replacing the empty region there. */
  function Insert(doc: string, pos: nat, text: string): (r: string)
    requires pos <= |doc|
    ensures |r| == |doc| + |text|
  {
    Replace(doc, Region(pos, pos), text)
  }

  /** Replacing the whole document leaves exactly the new text, whatever the
      document held before. */
  lemma ReplaceWhole(doc: string, text: string)
    ensures Replace(doc, Whole(doc), text) == text
  {
  }

  /** The error panel is rewritten by erasing everything it holds and then
      inserting the message at its (new) end. */
  function ShowInPanel(prior: string, message: string): (r: string)
    ensures r == message
  {
    var cleared := Erase(prior, Whole(prior));
    assert cleared == "";
    Insert(cleared, |cleared|, message)
  }
}

=== FILE: line_endings.dfy ===
/**
 The plugin's `fixup`: after the formatter's output (or error output) has
 been decoded, every `"\r\n"` and every lone `"\r"` is rewritten to `"\n"`.
 The plugin does this with a regular-expression substitution whose pattern
 tries `\r\n` before `\r`, scanning left to right; `Fixup` is that scan.
 */
module LineEndings {
  import opened Strings

  const CR: char := '\r'
  const LF: char := '\n'

  /** Normalise line endings: `CRLF` and lone `CR` both become `LF`; every
      other character is copied. */
  function Fixup(s: string): (r: string)
    ensures CR !in r
    ensures |r| <= |s|
    ensures |s| > 0 ==> |r| > 0
  {
    if |s| == 0 then ""
    else if s[0] == CR then
      if |s| > 1 && s[1] == LF then [LF] + Fixup(s[2..]) else [LF] + Fixup(s[1..])
    else [s[0]] + Fixup(s[1..])
  }

  /** Number of `"\r\n"` pairs in `s` (they cannot overlap). */
  function CrLfPairs(s: string): nat
  {
    if |s| < 2 then 0 else (if s[0] == CR && s[1] == LF then 1 else 0) + CrLfPairs(s[1..])
  }

  /** `s` with every `CR` and `LF` removed: the text between the line breaks. */
  function Content(s: string): (r: string)
    ensures CR !in r && LF !in r
  {
    if |s| == 0 then ""
    else if s[0] == CR || s[0] == LF then Content(s[1..])
    else [s[0]] + Content(s[1..])
  }

  /** Text without a `CR` is already normalised, and only such text is. */
  lemma {:induction false} FixupFixesExactlyClean(s: string)
    ensures Fixup(s) == s <==> CR !in s
  {
    if CR !in s && |s| > 0 {
      assert CR !in s[1..];
      FixupFixesExactlyClean(s[1..]);
      assert [s[0]] + s[1..] == s;
    }
  }

  /** Normalising twice is normalising once. */
  lemma FixupIdempotent(s: string)
    ensures Fixup(Fixup(s)) == Fixup(s)
  {
    FixupFixesExactlyClean(Fixup(s));
  }

  /** Each `CRLF` pair shortens the text by exactly one character, so the pair
      becomes one `LF` and not two; nothing else changes length. */
  lemma {:induction false} FixupLength(s: string)
    ensures |Fixup(s)| == |s| - CrLfPairs(s)
  {
    if |s| == 0 {
    } else if s[0] == CR && |s| > 1 && s[1] == LF {
      FixupLength(s[2..]);
      assert s[1..][1..] == s[2..];
      assert CrLfPairs(s[1..]) == CrLfPairs(s[2..]);
    } else {
      FixupLength(s[1..]);
    }
  }

  /** Every `CR` and every `LF` of the input yields one `LF` of the output,
      except that a `CRLF` pair yields only one. */
  lemma {:induction false} FixupLineBreaks(s: string)
    ensures Occurrences(Fixup(s), LF) == Occurrences(s, CR) + Occurrences(s, LF) - CrLfPairs(s)
  {
    if |s| == 0 {
    } else if s[0] == CR && |s| > 1 && s[1] == LF {
      FixupLineBreaks(s[2..]);
      assert s[1..][1..] == s[2..];
      assert CrLfPairs(s[1..]) == CrLfPairs(s[2..]);
      assert Occurrences(s[1..], LF) == 1 + Occurrences(s[2..], LF);
      assert Occurrences(s[1..], CR) == Occurrences(s[2..], CR);
    } else {
      FixupLineBreaks(s[1..]);
      if |s| > 1 {
        assert CrLfPairs(s) == CrLfPairs(s[1..]);
      }
    }
  }

  /** Every character other than a line break survives, in order. */
  lemma {:induction false} FixupKeepsContent(s: string)
    ensures Content(Fixup(s)) == Content(s)
  {
    if |s| == 0 {
    } else if s[0] == CR && |s| > 1 && s[1] == LF {
      FixupKeepsContent(s[2..]);
      assert s[1..][1..] == s[2..];
      assert ([LF] + Fixup(s[2..]))[1..] == Fixup(s[2..]);
    } else if s[0] == CR {
      FixupKeepsContent(s[1..]);
      assert ([LF] + Fixup(s[1..]))[1..] == Fixup(s[1..]);
    } else {
      FixupKeepsContent(s[1..]);
      assert ([s[0]] + Fixup(s[1..]))[1..] == Fixup(s[1..]);
    }
  }

  /** Normalisation works piece by piece, provided the cut does not separate
      a `CR` from the `LF` that follows it. */
  lemma {:induction false} FixupAppend(a: string, b: string)
    requires !(|a| > 0 && a[|a| - 1] == CR && |b| > 0 && b[0] == LF)
    ensures Fixup(a + b) == Fixup(a) + Fixup(b)
  {
    if |a| == 0 {
      assert a + b == b;
    } else if a[0] == CR && |a| > 1 && a[1] == LF {
      assert (a + b)[2..] == a[2..] + b;
      FixupAppend(a[2..], b);
    } else if a[0] == CR && |a| == 1 {
      assert (a + b)[1..] == b;
    } else {
      assert (a + b)[1..] == a[1..] + b;
      FixupAppend(a[1..], b);
    }
  }

  /** A `CRLF` anywhere in the text becomes exactly one `LF`. */
  lemma FixupCrLf(a: string, b: string)
    ensures Fixup(a + "\r\n" + b) == Fixup(a) + "\n" + Fixup(b)
  {
    var t: string := "\r\n" + b;
    assert a + "\r\n" + b == a + t;
    FixupAppend(a, t);
    assert t[0] == CR && t[1] == LF && t[2..] == b;
    assert Fixup(t) == [LF] + Fixup(b);
  }

  /** A `CR` not followed by `LF` becomes one `LF`. */
  lemma FixupLoneCr(a: string, b: string)
    requires |b| == 0 || b[0] != LF
    ensures Fixup(a + "\r" + b) == Fixup(a) + "\n" + Fixup(b)
  {
    var t: string := "\r" + b;
    assert a + "\r" + b == a + t;
    FixupAppend(a, t);
    assert t[0] == CR && t[1..] == b;
    assert Fixup(t) == [LF] + Fixup(b);
  }

  /** Any other character is copied in place. */
  lemma FixupOther(a: string, c: char, b: string)
    requires c != CR
    requires !(c == LF && |a| > 0 && a[|a| - 1] == CR)
    ensures Fixup(a + [c] + b) == Fixup(a) + [c] + Fixup(b)
  {
    var t := [c] + b;
    assert a + [c] + b == a + t;
    FixupAppend(a, t);
    assert t[0] == c && t[1..] == b;
    assert Fixup(t) == [c] + Fixup(b);
  }
}

=== FILE: strings.dfy ===
/**
 Joining and splitting strings on a single separator character, with the
 semantics of Python's `sep.join(parts)` and `s.split(sep)` for a one-character
 separator. The plugin joins its configured filter names with `' '.join(...)`
 into one command-line token; `Split` is the reading of that token back into
 names. `Split` undoes `Join` on non-empty lists of separator-free names, and
 `Join` undoes `Split` on every string.
 */
module Strings {

  /** `[sep].join(parts)`: the parts in order, with one `sep` between neighbours. */
  function Join(parts: seq<string>, sep: char): (r: string)
    ensures |parts| == 0 ==> r == ""
    ensures |parts| > 0 ==> |r| == TotalLength(parts) + |parts| - 1
    ensures forall c :: c != sep && c in r ==> exists i :: 0 <= i < |parts| && c in parts[i]
  {
    if |parts| == 0 then ""
    else if |parts| == 1 then parts[0]
    else
      var tail := Join(parts[1..], sep);
      assert forall c :: c != sep && c in tail ==>
                 exists i :: 1 <= i < |parts| && c in parts[i] by {
        forall c | c != sep && c in tail
          ensures exists i :: 1 <= i < |parts| && c in parts[i]
        {
          var j :| 0 <= j < |parts[1..]| && c in parts[1..][j];
          assert c in parts[j + 1];
        }
      }
      parts[0] + [sep] + tail
  }

  /** Sum of the lengths of the parts. */
  function TotalLength(parts: seq<string>): nat
  {
    if |parts| == 0 then 0 else |parts[0]| + TotalLength(parts[1..])
  }

  /** `s.split(sep)`: the maximal `sep`-free pieces of `s`, in order; an empty
      string splits into one empty piece, and neighbouring separators give an
      empty piece between them. */
  function Split(s: string, sep: char): (r: seq<string>)
    ensures |r| >= 1
    ensures forall i :: 0 <= i < |r| ==> sep !in r[i]
    ensures |r| == Occurrences(s, sep) + 1
  {
    if |s| == 0 then [""]
    else if s[0] == sep then [""] + Split(s[1..], sep)
    else
      var rest := Split(s[1..], sep);
      [[s[0]] + rest[0]] + rest[1..]
  }

  /** Number of positions of `s` holding `c`. */
  function Occurrences(s: string, c: char): nat
  {
    if |s| == 0 then 0 else (if s[0] == c then 1 else 0) + Occurrences(s[1..], c)
  }

  /** A piece free of the separator splits into itself alone. */
  lemma {:induction false} SplitPlain(p: string, sep: char)
    requires sep !in p
    ensures Split(p, sep) == [p]
  {
    if |p| > 0 {
      SplitPlain(p[1..], sep);
      assert [p[0]] + p[1..] == p;
    }
  }

  /** Splitting `p + [sep] + rest` yields `p` followed by the pieces of `rest`. */
  lemma {:induction false} SplitAfterPiece(p: string, sep: char, rest: string)
    requires sep !in p
    ensures Split(p + [sep] + rest, sep) == [p] + Split(rest, sep)
  {
    var s := p + [sep] + rest;
    if |p| == 0 {
      assert s == [sep] + rest;
      assert s[1..] == rest;
    } else {
      assert s[1..] == p[1..] + [sep] + rest;
      SplitAfterPiece(p[1..], sep, rest);
      assert [p[0]] + p[1..] == p;
    }
  }

  /** Round trip: a non-empty list of separator-free parts is recovered from
      its join. (The empty list is excluded because `Join([]) == Join([""])`.) */
  lemma {:induction false} SplitJoin(parts: seq<string>, sep: char)
    requires |parts| > 0
    requires forall i :: 0 <= i < |parts| ==> sep !in parts[i]
    ensures Split(Join(parts, sep), sep) == parts
  {
    if |parts| == 1 {
      SplitPlain(parts[0], sep);
    } else {
      SplitJoin(parts[1..], sep);
      SplitAfterPiece(parts[0], sep, Join(parts[1..], sep));
      assert [parts[0]] + parts[1..] == parts;
    }
  }

  /** Round trip in the other direction: joining the pieces of any string
      gives the string back. */
  lemma {:induction false} JoinSplit(s: string, sep: char)
    ensures Join(Split(s, sep), sep) == s
  {
    if |s| == 0 {
    } else if s[0] == sep {
      JoinSplit(s[1..], sep);
      var rest := Split(s[1..], sep);
      assert Split(s, sep) == [""] + rest;
      assert ([""] + rest)[1..] == rest;
      assert [s[0]] + s[1..] == s;
    } else {
      JoinSplit(s[1..], sep);
      var rest := Split(s[1..], sep);
      var r := [[s[0]] + rest[0]] + rest[1..];
      assert Split(s, sep) == r;
      assert r[1..] == rest[1..];
      if |rest| == 1 {
        assert Join(rest, sep) == rest[0];
      } else {
        assert Join(rest, sep) == rest[0] + [sep] + Join(rest[1..], sep);
      }
      assert [s[0]] + s[1..] == s;
    }
  }
}
